=== FILE: README.md ===
# ICS Cards statement downloader — verified model of its data logic

`DownloadStatement.py` logs into the ICS Cards (ABN Amro) site and, for every
month from a start period to an end period, downloads the statement page. It
accepts the page's single statement table, normalises each of the table's rows
into a record, and writes all records as CSV. This project models the
deterministic part of that program in Dafny and proves properties of the model:

- **`Periods`.** The statement `Period` (year, month):
  - `increment_month`;
  - the `YYYYMM` request key produced by `__str__`;
  - the statement URL.
- **`Decimal`.** Python's `format(n, "0<w>d")`: zero padding, with the minus
  sign counted in the width. It comes with a reader that parses the text back.
- **`Text`.** The ASCII character classes `\s`, `\d`, `\w` and `.`, plus
  `str.replace`, `str.strip` and the cell-text flattening of `__get_entry`.
- **`Patterns`.** The two fixed regular expressions of `__get_entry`:
  - the anchored substitution `^.+\s(\d+),(\d+).*` → `\1.\2` that repairs
    the amount;
  - the lazy search `(.+?)\s\w{3}\s+Land:` that extracts the payee.

  Each is given as an explicit match predicate, plus a function that finds
  the match Python's backtracking engine reports. That is the rightmost
  split for the greedy `.+`, and the leftmost start with the shortest group
  for the lazy `.+?`.
- **`Entries`.** `__get_entry` on one row of cell texts:
  - an empty row yields no entry;
  - a row with 1–6 cells raises an index error;
  - otherwise column 5 gets its commas replaced by dots and column 6 is
    repaired;
  - the payee, `out` and `in` fields are appended;
  - a `Debet` row has its amount negated.
- **`Statement`.** `__parse_table` and `__get_headers` on a reader state of
  headers and entries:
  - exactly one table is accepted;
  - headers are captured only while none are held, with `payee`, `out` and
    `in` appended;
  - rows are processed in order and the first error stops processing.

  The run over several pages is a fold of the table step.
- **`Driver`.** The logic of `main`:
  - start and end periods, where omitted options come from today's date;
  - the default file name and the chosen output name;
  - the loop that requests one statement per month until the end is reached.
- **`Results`.** `Option`, `Result` and the three failures the modelled part of the run can raise.
- **`Examples`.** Worked cases that pin the behaviour down on concrete inputs.

Today's date and the downloaded pages are parameters. A page is given as its
statement tables: the `th` texts plus, for each `tr`, the raw `td` texts.

### Behaviour worth knowing

- **Thousands dot.** A thousands dot defeats the amount repair: in
  `€ 1.234,56` no whitespace precedes the digit run before the comma, so
  the substitution does not match and the cell is stored unchanged
  (`Examples.AmountWithThousandsDot`).
- **City code.** The payee of `ALBERT HEIJN 1234 AMS Land: NLD` is
  `ALBERT HEIJN 1234`: `\w{3}` consumes the city code `AMS`
  (`Examples.PayeeStopsBeforeCode`).
- **End period defaults.** An omitted `--end-month` or `--end-year` takes
  today's month or year, whatever the start period is. A run given only
  `-m`/`-y` therefore spans from that period up to today when that period is
  not later than today (`Driver.EndPeriod`, `Driver.EndIgnoresStartOptions`).
  A later start, such as `-m 11` in October, never meets the end, and the
  loop keeps requesting later months (`Driver.NeverReached`,
  `Examples.LateStartNeverEnds`).
- **Empty amount.** A row with an empty amount cell has both `out` and `in`
  empty; with a non-empty amount exactly one of them is filled
  (`Entries.SplitAgreesWithSignedAmount`).

## Model

| member | source | states |
|---|---|---|
| Periods.IncrementMonth | DownloadStatement.py:157-166 | month 12 rolls over to a new year, and only then does the year change (by exactly one); for every month number, valid or not, the month count advances by exactly one, and a valid month stays valid |
| Periods.IterateAdvances | DownloadStatement.py:232-234 | k calls of `increment_month` advance any period's month count by exactly k, and a valid period stays valid |
| Periods.Format | DownloadStatement.py:178-183 | the `YYYYMM` key reads back to the period it was made from; for years 0..9999 and months 0..99 it is exactly six digits |
| Periods.FormatInjective | DownloadStatement.py:178-183 | distinct periods (months 0..99) give distinct request keys |
| Periods.StatementUrl | DownloadStatement.py:52 | the requested address is the fixed statement base address followed by a key from which the period reads back |
| Periods.FormatExample | DownloadStatement.py:154-155 | the default period, January 2012, has key `201201` |
| Decimal.FormatInt | DownloadStatement.py:183 | `{:0<w>d}` text parses back to the number, is at least w long, is all digits for a non-negative number, and is exactly w long when the number fits; a number too wide for the field is written in full without padding (its digits, after `-` when negative) |
| Decimal.DigitsFit | DownloadStatement.py:183 | a number's plain decimal text fits in w characters exactly when the number is below 10^w |
| Text.Replace | DownloadStatement.py:92 | `str.replace` of one character: same length, each occurrence replaced, every other character kept, none of the replaced character left |
| Text.Strip | DownloadStatement.py:85 | `strip()` removes exactly the leading and trailing whitespace: the result is a slice of the input with whitespace-only margins and no whitespace at either end |
| Text.StripIdempotent | DownloadStatement.py:85 | stripping a stripped text changes nothing |
| Text.CellText | DownloadStatement.py:85 | a cell text is the raw text with every newline turned into a space and exactly the surrounding whitespace cut off: a slice of the flattened text with whitespace-only margins, holding no newline and no edge whitespace |
| Text.CellTextIdempotent | DownloadStatement.py:85 | flattening and stripping an already clean cell text changes nothing |
| Patterns.LastAmountMatch | DownloadStatement.py:94 | the search finds the largest split point at which the amount pattern matches, or reports that there is none |
| Patterns.RepairAmount | DownloadStatement.py:94 | the amount is unchanged exactly when the pattern does not match; otherwise it is rewritten from the rightmost match; the result is empty only for an empty amount |
| Patterns.LastMatchIsTheRightmost | DownloadStatement.py:94 | the match the greedy `.+` settles on is the one with no later match |
| Patterns.ReplacementIsShorter | DownloadStatement.py:94 | the substitution result is non-empty and strictly shorter than the amount it replaces |
| Patterns.RepairedAmountIsDecimal | DownloadStatement.py:94 | on a newline-free amount, the repair is group 1 (the whole digit run after the last usable whitespace), a dot, and group 2 (the whole digit run after the comma); it is a plain decimal and holds no comma |
| Patterns.ReplacementWithoutNewline | DownloadStatement.py:94 | without a newline the trailing `.*` consumes the rest, so the substitution leaves exactly `D1.D2` |
| Patterns.RepairedMatchIsDecimal | DownloadStatement.py:94 | whenever the pattern matches a newline-free amount, the repair is a plain decimal without a comma |
| Patterns.ShortestPayeeEnd | DownloadStatement.py:88 | the lazy group grows one character at a time: the first end that completes the pattern, with no shorter one; none when a newline is reached first |
| Patterns.SearchPayee | DownloadStatement.py:97 | `search` finds the leftmost start with a match and the shortest group there, or reports that no start matches |
| Patterns.SearchFindsLeftmostShortest | DownloadStatement.py:97 | the search result is exactly the leftmost, shortest match |
| Patterns.LazyGroupFrom | DownloadStatement.py:88 | from a fixed start, a failed lazy search means no end matches, and a found end has no shorter matching end |
| Patterns.Payee | DownloadStatement.py:97-101 | the payee is group 1 of the leftmost, shortest match, and the whole description when nothing matches |
| Patterns.PayeeIsPrefix | DownloadStatement.py:97-101 | on a newline-free description the payee is a prefix: either the whole description or the shortest non-empty prefix followed by the country tail; when such a tail exists the payee is never the whole description |
| Entries.RowTexts | DownloadStatement.py:81-86 | one text per `td` cell, in order, each flattened and stripped |
| Entries.Normalize | DownloadStatement.py:90-112 | three fields are appended; only columns 5 and 6 change; column 5 has its commas replaced by dots; the payee comes from column 2; a debit gets out = amount, in empty, and amount `-` + amount; a credit gets out empty and in = amount |
| Entries.GetEntry | DownloadStatement.py:80-115 | no entry exactly for an empty row; an index error exactly for 1–6 cells; otherwise the normalised record of the cell texts, three fields longer than the row |
| Entries.SplitAgreesWithSignedAmount | DownloadStatement.py:103-112 | out and in are never both filled; the stored amount is the sign followed by out and in; a non-empty amount fills exactly one of them, and it is out exactly for a debit |
| Entries.EntryInvariants | DownloadStatement.py:80-115 | every stored record has a comma-free column 5, a payee that is a prefix of the description, at most one of out/in filled, and a plain-decimal amount whenever the pattern matched |
| Entries.StoredFieldsAreClean | DownloadStatement.py:92-112 | for newline-free description and amount cells: no comma in column 5, the payee is a prefix of column 2, and a matched amount is a plain decimal without a comma |
| Statement.CollectOutcome | DownloadStatement.py:131-132 | for any row step that behaves like `__get_entry`, the row loop succeeds exactly when every row fits, fails only with an index error, yields one entry per non-empty row, and each entry is at least ten fields long |
| Statement.EntriesOf | DownloadStatement.py:129-132 | the rows of a table succeed exactly when each is empty or has at least seven cells; the error is an index error; one entry per non-empty row, and the entry of row i, at the position counting the non-empty rows before it, is the normalised record of that row's cell texts |
| Statement.CollectRecords | DownloadStatement.py:131-132 | for any row step that behaves like `__get_entry`, a successful row loop stores each non-empty row's record at the position given by the non-empty rows before it |
| Statement.EntriesOfOneRow | DownloadStatement.py:80-115 | a table of one row gives no entry for an empty row, an index error for 1–6 cells, and otherwise exactly the one normalised record of its cell texts |
| Statement.ParseTable | DownloadStatement.py:118-132 | no table and more than one table fail with their own errors; with one table it succeeds exactly when every row fits and otherwise fails with the index error; headers are kept if present, otherwise they become the `th` texts followed by payee, out, in; the new entries are exactly the table's records (`EntriesOf`) appended after the old ones |
| Statement.CollectAppend | DownloadStatement.py:131-132 | processing rows in two batches yields the first batch's entries followed by the second's |
| Statement.EntriesOfAppend | DownloadStatement.py:131-132 | a table's rows split in two give the entries of the first part followed by those of the second, in row order |
| Statement.HeadersCapturedOnce | DownloadStatement.py:126-127 | after a successful run from a fresh reader, the headers are the first page's `th` texts plus payee, out, in, whatever later pages hold |
| Statement.RunCapturesHeadersOnce | DownloadStatement.py:126-127 | the same for any page step that captures headers only while none are held |
| Statement.Download | DownloadStatement.py:229-234 | no pages leave the reader unchanged; the run succeeds exactly when every page holds one statement table whose rows are each empty or at least seven cells long; a successful run's entries are the old ones followed by each page's table records, page by page |
| Statement.RunSucceeds | DownloadStatement.py:229-234 | for any page step that succeeds exactly on fitting pages, the run succeeds exactly when every page fits |
| Statement.RunOneTablePerPage | DownloadStatement.py:229-234 | for any page step that fails unless given one table, a successful run had one table on every page |
| Statement.RunEntries | DownloadStatement.py:229-234 | for any page step that appends a page's records, a successful run appends the pages' records in page order |
| Statement.DownloadOnlyAppends | DownloadStatement.py:229-234 | each earlier point of a successful run also succeeded, and its entries are a prefix of the final entries |
| Statement.RunOnlyAppends | DownloadStatement.py:229-234 | the same for any page step that only appends entries |
| Driver.StartPeriod | DownloadStatement.py:187-210 | the first period's month is `-m` when given and today's month otherwise, and its year is `-y` when given and today's year otherwise; with neither it is today |
| Driver.EndPeriod | DownloadStatement.py:187-216 | the last period's month is `--end-month` when given and today's month otherwise, and its year is `--end-year` when given and today's year otherwise; with neither it is today |
| Driver.EndIgnoresStartOptions | DownloadStatement.py:187-216 | the last period does not depend on `-m`/`-y` |
| Driver.StartIgnoresEndOptions | DownloadStatement.py:187-210 | the first period does not depend on `--end-month`/`--end-year` |
| Driver.SinglePeriodExactlyWhenStartIsToday | DownloadStatement.py:187-219 | without end options, the run covers a single month exactly when each given start option equals today's month or year |
| Driver.DefaultFilename | DownloadStatement.py:218-222 | for years 0..9999 and months 0..99 the name is 11 characters for a single period and 22 for a range; it starts with a `yyyy-mm` label whose digit fields read back as the start's year and month, and ends in `.csv`; for a range `_to_` follows the start label and is followed by a label that reads back as the end period |
| Driver.LabelReadsBack | DownloadStatement.py:220 | a `yyyy-mm` label of a four-digit year and a two-digit month is seven characters with `-` at position 4, and its two digit fields read back as the year and the month |
| Driver.FilenameShape | DownloadStatement.py:220-222 | both file-name formats place the start label at the front and `.csv` at the end; the range format has `_to_` at positions 7..10 and the end label at position 11 |
| Driver.MonthLabelDetermines | DownloadStatement.py:220 | a `yyyy-mm` label determines its period (months 0..99) |
| Driver.DefaultFilenameDetermines | DownloadStatement.py:218-222 | distinct start/end pairs with four-digit years get distinct default names |
| Driver.OutputFilename | DownloadStatement.py:218-224 | `--filename` wins when given; otherwise the name is the default name of the first and last periods; with no options at all, that is today's `yyyy-mm.csv` |
| Driver.RangeIsReached | DownloadStatement.py:232-234 | from a valid start, a valid end no earlier is reached after exactly as many steps as there are months between them |
| Driver.NeverReached | DownloadStatement.py:232-234 | from a valid start, an earlier end or one with a month outside 1..12 is never reached, so the loop does not stop |
| Driver.VisitPeriods | DownloadStatement.py:229-234 | the periods requested are the start, then one `increment_month` after another, ending at the end and not meeting it earlier; from a valid start they are valid, consecutive months, one per month from start to end |
| Results.Message | DownloadStatement.py:237-238 | every failure is reported with a non-empty text |
| Results.MessageIdentifiesFailure | DownloadStatement.py:237-238 | the reported text identifies the failure |
| Statement.ParseTableMessages | DownloadStatement.py:120-123 | a page with no table is reported as "No statement table found", one with several tables as "Too many statement tables found", and one table with a 1–6 cell row as Python's "list index out of range" |
| Examples.IncrementExamples | DownloadStatement.py:162-166 | December 2020 steps to January 2021; May steps to June of the same year |
| Examples.AmountWithCurrencyCode | DownloadStatement.py:94 | `EUR 12,50` is repaired to `12.50` |
| Examples.AmountWithThousandsDot | DownloadStatement.py:94 | `€ 1.234,56` is left unchanged |
| Examples.AmountWithThousandsSpace | DownloadStatement.py:94 | `€ 1 234,56` is repaired to `234.56`: only the last digit group survives |
| Examples.PayeeStopsBeforeCode | DownloadStatement.py:97-101 | the payee of `ALBERT HEIJN 1234 AMS Land: NLD` is `ALBERT HEIJN 1234` |
| Examples.LateStartNeverEnds | DownloadStatement.py:187-234 | with only `-m 11` given in October 2026 the run starts in November 2026, ends at October 2026, and no number of `increment_month` steps meets the end |

## Left out

- **Logging in and downloading** (`__login`, `requests.Session`, the GET in
  `get_statement`). This is network I/O against a foreign site. The pages a
  run receives are a parameter of `Statement.Download`.
- **HTML parsing** with BeautifulSoup (`select`, `getText`). The library is
  not visible. Tables arrive already split into `th` texts and rows of raw
  `td` texts.
  - The header texts are used as given, since the source does not strip them.
  - Row texts go through the source's own flattening and stripping
    (`Entries.RowTexts`).
- **`to_csv` and the `csv` module's quoting.** This is foreign library output.
  The model ends at the reader state, whose headers come first and whose
  entries are in order.
- **Command-line plumbing.**
  - `argparse` parsing: options arrive as `Driver.Options`.
  - `datetime.date.today()`: today is a parameter.
  - The unused `--verbose` flag, the progress `print`s, and printing the
    exception message before `exit(-1)`.

  `Results.Message` gives the three messages' texts.
- **Class-level `__headers`/`__entries` lists shared between instances.**
  The program creates one reader, so the model has a single reader state.
- **Partial state when an exception is raised.** The model returns the error
  and drops the reader. The source stops the whole run at that point and
  writes nothing.
- **Unicode character classes.** `\s`, `\d`, `\w` and `str.strip` classify
  only ASCII characters here. Python would also accept non-ASCII digits,
  letters and spaces.
- **General regular expressions.** Only the two fixed patterns are modelled,
  each by its own match predicate and search function. There is no regex
  engine.
- Periods.Format: the read-back is stated for months 0..99. A negative or
  three-digit month makes the year/month boundary in the key ambiguous.
- Driver.DefaultFilename: lengths and field positions are stated only for
  years 0..9999 and months 0..99, where every field has its fixed width.
  `Driver.DefaultFilenameDetermines` carries the rest of the promise.
- Driver.VisitPeriods: requires that the end is reachable. For an
  unreachable end the source loops forever, requesting ever later months.
  `Driver.NeverReached` states when that happens.
- Patterns.RepairedAmountIsDecimal: the `D1.D2` shape is stated for
  newline-free amounts, which is every cell text the reader produces
  (`Text.CellText`). `Patterns.RepairAmount` itself also handles amounts
  with newlines.

=== FILE: decimal.dfy ===
/** Decimal text of integers as Python's format specification `0<w>d`
    produces it (zero-padded to width `w`, the sign counted in the width),
    and the reading back of such text. */
module Decimal {
  import opened Text

  function Pow10(w: nat): (p: nat)
    ensures p >= 1
  {
    if w == 0 then 1 else 10 * Pow10(w - 1)
  }

  function DigitChar(d: nat): (c: char)
    requires d < 10
    ensures IsDigit(c) && DigitValue(c) == d
  {
    ('0' as int + d) as char
  }

  function DigitValue(c: char): int {
    c as int - '0' as int
  }

  /** The value of a digit string, most significant digit first. */
  function Value(s: string): int
    decreases |s|
  {
    if s == [] then 0 else 10 * Value(s[..|s| - 1]) + DigitValue(s[|s| - 1])
  }

  /** The shortest decimal text of `n` (what `str(n)` gives). */
  function Digits(n: nat): (s: string)
    ensures 1 <= |s| && AllDigits(s)
    ensures Value(s) == n
    decreases n
  {
    if n < 10 then [DigitChar(n)]
    else
      var s := Digits(n / 10) + [DigitChar(n % 10)];
      assert s[..|s| - 1] == Digits(n / 10);
      s
  }

  /** `n` needs no more than `w` digits exactly when it is below `10^w`. */
  lemma {:induction false} DigitsFit(n: nat, w: nat)
    requires 1 <= w
    ensures |Digits(n)| <= w <==> n < Pow10(w)
    decreases n
  {
    if n >= 10 {
      if w == 1 {
        assert Pow10(1) == 10;
      } else {
        DigitsFit(n / 10, w - 1);
      }
    } else {
      assert Pow10(w) >= 10 by { Pow10AtLeastTen(w); }
    }
  }

  lemma {:induction false} Pow10AtLeastTen(w: nat)
    requires 1 <= w
    ensures Pow10(w) >= 10
  {
    if w > 1 {
      Pow10AtLeastTen(w - 1);
    }
  }

  function Zeros(k: nat): (s: string)
    ensures |s| == k && forall i :: 0 <= i < k ==> s[i] == '0'
  {
    seq(k, _ => '0')
  }

  /** Leading zeros do not change the value of a digit string. */
  lemma {:induction false} ValueIgnoresLeadingZeros(k: nat, s: string)
    ensures Value(Zeros(k) + s) == Value(s)
    decreases |s|, k
  {
    if s == [] {
      if k > 0 {
        assert Zeros(k)[..k - 1] == Zeros(k - 1);
        ValueIgnoresLeadingZeros(k - 1, []);
        assert Zeros(k - 1) + [] == Zeros(k - 1);
        assert Zeros(k) + [] == Zeros(k);
      } else {
        assert Zeros(0) + s == s;
      }
    } else {
      var t := Zeros(k) + s;
      assert t[..|t| - 1] == Zeros(k) + s[..|s| - 1];
      ValueIgnoresLeadingZeros(k, s[..|s| - 1]);
    }
  }

  function PadLeft(s: string, w: nat): (r: string)
    ensures |r| == if |s| < w then w else |s|
    ensures |s| >= w ==> r == s
  {
    if |s| < w then Zeros(w - |s|) + s else s
  }

  /** Text that `ParseInt` reads: digits, optionally after a minus sign. */
  predicate IsIntText(s: string) {
    || (|s| >= 1 && AllDigits(s))
    || (|s| >= 2 && s[0] == '-' && AllDigits(s[1..]))
  }

  function ParseInt(s: string): int {
    if |s| > 0 && s[0] == '-' then -Value(s[1..]) else Value(s)
  }

  /** Python's `format(n, "0<w>d")`: the decimal text of `n`, left-padded
      with zeros to `w` characters, a minus sign counting towards the width. */
  function FormatInt(n: int, w: nat): (r: string)
    ensures IsIntText(r) && ParseInt(r) == n
    ensures |r| >= w
    ensures n >= 0 ==> AllDigits(r)
    ensures 1 <= w && 0 <= n < Pow10(w) ==> |r| == w
    ensures n >= 0 && |r| > w ==> r == Digits(n)
    ensures n < 0 && |r| > w ==> r == "-" + Digits(-n)
  {
    if n < 0 then
      var body := PadLeft(Digits(-n), if w > 0 then w - 1 else 0);
      PadValue(Digits(-n), if w > 0 then w - 1 else 0);
      var r := "-" + body;
      assert r[1..] == body;
      r
    else
      PadValue(Digits(n), w);
      PadFits(n, w);
      PadLeft(Digits(n), w)
  }

  lemma PadFits(n: nat, w: nat)
    ensures 1 <= w && n < Pow10(w) ==> |PadLeft(Digits(n), w)| == w
  {
    if 1 <= w && n < Pow10(w) {
      DigitsFit(n, w);
    }
  }

  lemma PadValue(s: string, w: nat)
    requires 1 <= |s| && AllDigits(s)
    ensures AllDigits(PadLeft(s, w)) && Value(PadLeft(s, w)) == Value(s)
    ensures PadLeft(s, w)[0] != '-'
  {
    if |s| < w {
      ValueIgnoresLeadingZeros(w - |s|, s);
    }
  }
}

=== FILE: driver.dfy ===
/** The command-line driver's own logic: which periods a run covers, the
    default output name, and the loop that requests one statement per month. */
module Driver {
  import opened Decimal
  import opened Results
  import opened Periods

  /** The period options as parsed; `None` where the option was omitted. */
  datatype Options = Options(
    month: Option<int>,
    year: Option<int>,
    endMonth: Option<int>,
    endYear: Option<int>,
    filename: Option<string>)

  /** The first period: `-m` and `-y` where given, each omitted field
      taken from today. */
  function StartPeriod(today: Period, opts: Options): (p: Period)
    ensures opts.month.Some? ==> p.month == opts.month.value
    ensures opts.month.None? ==> p.month == today.month
    ensures opts.year.Some? ==> p.year == opts.year.value
    ensures opts.year.None? ==> p.year == today.year
    ensures opts.month.None? && opts.year.None? ==> p == today
  {
    Period(opts.year.GetOr(today.year), opts.month.GetOr(today.month))
  }

  /** The last period: `--end-month` and `--end-year` where given, each
      omitted field also taken from today, never from the first period. */
  function EndPeriod(today: Period, opts: Options): (p: Period)
    ensures opts.endMonth.Some? ==> p.month == opts.endMonth.value
    ensures opts.endMonth.None? ==> p.month == today.month
    ensures opts.endYear.Some? ==> p.year == opts.endYear.value
    ensures opts.endYear.None? ==> p.year == today.year
    ensures opts.endMonth.None? && opts.endYear.None? ==> p == today
  {
    Period(opts.endYear.GetOr(today.year), opts.endMonth.GetOr(today.month))
  }

  /** The end of the range depends on the end options and today only. */
  lemma EndIgnoresStartOptions(today: Period, a: Options, b: Options)
    requires a.endMonth == b.endMonth && a.endYear == b.endYear
    ensures EndPeriod(today, a) == EndPeriod(today, b)
  {
  }

  /** The start of the range depends on `-m`, `-y` and today only. */
  lemma StartIgnoresEndOptions(today: Period, a: Options, b: Options)
    requires a.month == b.month && a.year == b.year
    ensures StartPeriod(today, a) == StartPeriod(today, b)
  {
  }

  /** Without end options the run covers a single month exactly when the
      start options name today's month (or are omitted). */
  lemma SinglePeriodExactlyWhenStartIsToday(today: Period, opts: Options)
    requires opts.endMonth.None? && opts.endYear.None?
    ensures StartPeriod(today, opts) == EndPeriod(today, opts) <==>
              (opts.month.None? || opts.month.value == today.month) &&
              (opts.year.None? || opts.year.value == today.year)
  {
  }

  /** `yyyy-mm` as the file name formats a period. */
  function MonthLabel(p: Period): string {
    FormatInt(p.year, 4) + "-" + FormatInt(p.month, 2)
  }

  /** The name used when `--filename` is omitted: `yyyy-mm.csv` for a single
      period, `yyyy-mm_to_yyyy-mm.csv` for a range. */
  function DefaultFilename(start: Period, end: Period): (name: string)
    ensures FixedWidthPeriod(start) && FixedWidthPeriod(end) ==>
              |name| == (if start == end then 11 else 22)
    ensures FixedWidthPeriod(start) && FixedWidthPeriod(end) ==>
              LabelAt(name, 0, start) && name[|name| - 4..] == ".csv"
    ensures FixedWidthPeriod(start) && FixedWidthPeriod(end) && start != end ==>
              name[7..11] == "_to_" && LabelAt(name, 11, end)
  {
    FilenameShape(start, end);
    if start == end then MonthLabel(start) + ".csv"
    else MonthLabel(start) + "_to_" + MonthLabel(end) + ".csv"
  }

  /** A year of at most four digits and a month of at most two: the periods
      whose file-name fields have fixed widths. */
  predicate FixedWidthPeriod(p: Period) {
    0 <= p.year <= 9999 && 0 <= p.month <= 99
  }

  /** At offset `k` the name holds a `yyyy-mm` label that reads back as `p`. */
  predicate LabelAt(name: string, k: nat, p: Period) {
    && k + 7 <= |name|
    && name[k + 4] == '-'
    && IsIntText(name[k..k + 4]) && ParseInt(name[k..k + 4]) == p.year
    && IsIntText(name[k + 5..k + 7]) && ParseInt(name[k + 5..k + 7]) == p.month
  }

  lemma LabelReadsBack(p: Period)
    requires FixedWidthPeriod(p)
    ensures |MonthLabel(p)| == 7 && LabelAt(MonthLabel(p), 0, p)
  {
    assert Pow10(4) == 10000 && Pow10(2) == 100;
    var y, m := FormatInt(p.year, 4), FormatInt(p.month, 2);
    assert |y| == 4 && |m| == 2;
    SliceOfLonger(y + "-", m, 0, 4);
    SliceOfLonger(y, "-", 0, 4);
    assert y[0..4] == y;
    SliceOfLonger(y + "-", m, 4, 5);
    Between(y, "-", m);
    EndsWith(y + "-", m);
    var l := MonthLabel(p);
    assert l[0..4] == y && l[4] == '-' && l[5..7] == m;
    assert IsIntText(y) && ParseInt(y) == p.year;
    assert IsIntText(m) && ParseInt(m) == p.month;
  }

  /** A label keeps reading back when text is put around it. */
  lemma LabelInside(x: string, l: string, y: string, p: Period)
    requires |l| == 7 && LabelAt(l, 0, p)
    ensures LabelAt(x + l + y, |x|, p)
  {
    var n := x + l + y;
    var k := |x|;
    assert n[k + 4] == l[4];
    assert n[k..k + 4] == l[0..4];
    assert n[k + 5..k + 7] == l[5..7];
  }

  lemma FilenameShape(start: Period, end: Period)
    ensures FixedWidthPeriod(start) && FixedWidthPeriod(end) ==>
              var n := MonthLabel(start) + ".csv";
              |n| == 11 && LabelAt(n, 0, start) && n[|n| - 4..] == ".csv"
    ensures FixedWidthPeriod(start) && FixedWidthPeriod(end) ==>
              var n := MonthLabel(start) + "_to_" + MonthLabel(end) + ".csv";
              && |n| == 22 && LabelAt(n, 0, start) && n[|n| - 4..] == ".csv"
              && n[7..11] == "_to_" && LabelAt(n, 11, end)
  {
    if FixedWidthPeriod(start) && FixedWidthPeriod(end) {
      LabelReadsBack(start);
      LabelReadsBack(end);
      var ls, le := MonthLabel(start), MonthLabel(end);
      LabelExtends(ls, ".csv", 0, start);
      EndsWith(ls, ".csv");
      LabelExtends(ls, "_to_", 0, start);
      LabelExtends(ls + "_to_", le, 0, start);
      LabelExtends(ls + "_to_" + le, ".csv", 0, start);
      LabelInside(ls + "_to_", le, ".csv", end);
      EndsWith(ls + "_to_" + le, ".csv");
      Between(ls, "_to_", le);
      SliceOfLonger(ls + "_to_" + le, ".csv", 7, 11);
    }
  }

  /** Text appended after a label leaves it in place. */
  lemma LabelExtends(a: string, b: string, k: nat, p: Period)
    requires LabelAt(a, k, p)
    ensures LabelAt(a + b, k, p)
  {
    SliceOfLonger(a, b, k, k + 4);
    SliceOfLonger(a, b, k + 5, k + 7);
  }

  lemma SliceOfLonger(a: string, b: string, i: nat, j: nat)
    requires i <= j <= |a|
    ensures (a + b)[i..j] == a[i..j]
  {
  }

  lemma EndsWith(x: string, y: string)
    ensures (x + y)[|x + y| - |y|..] == y
  {
  }

  lemma Between(x: string, y: string, z: string)
    ensures (x + y + z)[|x|..|x| + |y|] == y
  {
  }

  /** A label gives its period back: the year is everything before the
      last three characters, the month is the last two. */
  lemma {:induction false} MonthLabelDetermines(p: Period, q: Period)
    requires 0 <= p.month <= 99 && 0 <= q.month <= 99
    requires MonthLabel(p) == MonthLabel(q)
    ensures p == q
  {
    assert Pow10(2) == 100;
    var l := MonthLabel(p);
    var yp, yq := FormatInt(p.year, 4), FormatInt(q.year, 4);
    var mp, mq := FormatInt(p.month, 2), FormatInt(q.month, 2);
    assert l[..|l| - 3] == yp && l[|l| - 2..] == mp;
    assert l[..|l| - 3] == yq && l[|l| - 2..] == mq;
  }

  /** Distinct runs over four-digit years get distinct default names. */
  lemma {:induction false} DefaultFilenameDetermines(s1: Period, e1: Period, s2: Period, e2: Period)
    requires FixedWidthPeriod(s1) && FixedWidthPeriod(e1) && FixedWidthPeriod(s2) && FixedWidthPeriod(e2)
    requires DefaultFilename(s1, e1) == DefaultFilename(s2, e2)
    ensures s1 == s2 && e1 == e2
  {
    var n := DefaultFilename(s1, e1);
    LabelReadsBack(s1); LabelReadsBack(s2); LabelReadsBack(e1); LabelReadsBack(e2);
    assert n[..7] == MonthLabel(s1) && n[..7] == MonthLabel(s2);
    MonthLabelDetermines(s1, s2);
    if s1 != e1 {
      assert n[11..18] == MonthLabel(e1) && n[11..18] == MonthLabel(e2);
      MonthLabelDetermines(e1, e2);
    }
  }

  /** The output name: the `--filename` option if given, else the default. */
  function OutputFilename(today: Period, opts: Options): (name: string)
    ensures opts.filename.Some? ==> name == opts.filename.value
    ensures opts.filename.None? ==> name == DefaultFilename(StartPeriod(today, opts), EndPeriod(today, opts))
    ensures opts.filename.None? && opts == Options(None, None, None, None, None) ==>
              name == MonthLabel(today) + ".csv"
  {
    opts.filename.GetOr(DefaultFilename(StartPeriod(today, opts), EndPeriod(today, opts)))
  }

  /** Stepping from `start` eventually gives exactly `end`: the condition
      under which the run's loop stops. */
  ghost predicate Reaches(start: Period, end: Period) {
    exists k: nat :: Iterate(start, k) == end
  }

  /** A valid end no earlier than a valid start is reached after as many
      steps as there are months between them. */
  lemma RangeIsReached(start: Period, end: Period)
    requires Valid(start) && Valid(end) && Index(start) <= Index(end)
    ensures Iterate(start, Index(end) - Index(start)) == end
    ensures Reaches(start, end)
  {
    var k := Index(end) - Index(start);
    IterateAdvances(start, k);
    IndexDetermines(Iterate(start, k));
    IndexDetermines(end);
  }

  /** From a valid start the loop never stops when the end is earlier or
      has a month outside 1..12: it keeps requesting statements forever. */
  lemma NeverReached(start: Period, end: Period, k: nat)
    requires Valid(start) && (!Valid(end) || Index(end) < Index(start))
    ensures Iterate(start, k) != end
  {
    IterateAdvances(start, k);
  }

  /** The periods whose statements the run requests, in order: the start,
      then one `increment_month` after another until the end is reached. */
  method VisitPeriods(start: Period, end: Period) returns (visited: seq<Period>)
    requires Reaches(start, end)
    ensures |visited| >= 1 && visited[0] == start && visited[|visited| - 1] == end
    ensures forall i :: 0 <= i < |visited| ==> visited[i] == Iterate(start, i)
    ensures forall i :: 0 <= i < |visited| - 1 ==> visited[i] != end
    ensures Valid(start) ==> |visited| == Index(end) - Index(start) + 1
    ensures Valid(start) ==> forall i :: 0 <= i < |visited| ==>
              Valid(visited[i]) && Index(visited[i]) == Index(start) + i
  {
    ghost var n: nat :| Iterate(start, n) == end;
    var period := start;
    visited := [period];
    while !SameMonth(period, end)
      invariant 1 <= |visited| <= n + 1 && visited == Trail(start, |visited|)
      invariant period == visited[|visited| - 1]
      invariant end !in visited[..|visited| - 1]
      decreases n + 1 - |visited|
    {
      assert period == Iterate(start, |visited| - 1);
      assert |visited| - 1 != n;
      var next := IncrementMonth(period);
      TrailStep(start, end, visited);
      visited := visited + [next];
      period := next;
    }
    VisitedFromValidStart(start, end, visited);
  }

  /** The first `k` periods from `start`: `start` and its successors. */
  function Trail(start: Period, k: nat): (t: seq<Period>)
    ensures |t| == k
    ensures k > 0 ==> t[0] == start
    decreases k
  {
    if k == 0 then [] else Trail(start, k - 1) + [Iterate(start, k - 1)]
  }

  /** Entry `i` of a trail is the period `i` steps from its start. */
  lemma {:induction false} TrailIsIterates(start: Period, k: nat)
    ensures forall i :: 0 <= i < k ==> Trail(start, k)[i] == Iterate(start, i)
    decreases k
  {
    if k > 0 {
      TrailIsIterates(start, k - 1);
      var t := Trail(start, k);
      forall i | 0 <= i < k
        ensures t[i] == Iterate(start, i)
      {
        if i < k - 1 {
          assert t[i] == Trail(start, k - 1)[i];
        }
      }
    }
  }

  /** One more step, taken from a period other than `end`, extends the trail
      and leaves `end` unmet before its last entry. */
  lemma TrailStep(start: Period, end: Period, visited: seq<Period>)
    requires |visited| >= 1 && visited == Trail(start, |visited|)
    requires end !in visited[..|visited| - 1] && visited[|visited| - 1] != end
    ensures var v := visited + [IncrementMonth(visited[|visited| - 1])];
            && v == Trail(start, |v|)
            && end !in v[..|v| - 1]
  {
    var k := |visited|;
    var v := visited + [IncrementMonth(visited[k - 1])];
    TrailIsIterates(start, k);
    assert visited[k - 1] == Iterate(start, k - 1);
    assert Iterate(start, k) == IncrementMonth(visited[k - 1]);
    assert v[..k] == visited;
    assert visited == visited[..k - 1] + [visited[k - 1]];
  }

  lemma VisitedFromValidStart(start: Period, end: Period, visited: seq<Period>)
    requires |visited| >= 1 && visited == Trail(start, |visited|)
    requires visited[|visited| - 1] == end && end !in visited[..|visited| - 1]
    ensures |visited| >= 1 && visited[0] == start && visited[|visited| - 1] == end
    ensures forall i :: 0 <= i < |visited| ==> visited[i] == Iterate(start, i)
    ensures forall i :: 0 <= i < |visited| - 1 ==> visited[i] != end
    ensures Valid(start) ==> |visited| == Index(end) - Index(start) + 1
    ensures Valid(start) ==> forall i :: 0 <= i < |visited| ==>
              Valid(visited[i]) && Index(visited[i]) == Index(start) + i
  {
    TrailIsIterates(start, |visited|);
    forall i | 0 <= i < |visited| - 1
      ensures visited[i] != end
    {
      assert visited[i] == visited[..|visited| - 1][i];
    }
    if Valid(start) {
      StepsAreConsecutive(start, visited);
    }
  }

  /** The loop's stopping test: month and year both equal. */
  predicate SameMonth(a: Period, b: Period): (r: bool)
    ensures r <==> a == b
  {
    a.month == b.month && a.year == b.year
  }

  /** Periods reached one step at a time from a valid start are valid and
      consecutive months. */
  lemma StepsAreConsecutive(start: Period, visited: seq<Period>)
    requires Valid(start)
    requires forall i :: 0 <= i < |visited| ==> visited[i] == Iterate(start, i)
    ensures forall i :: 0 <= i < |visited| ==>
              Valid(visited[i]) && Index(visited[i]) == Index(start) + i
  {
    forall i | 0 <= i < |visited|
      ensures Valid(visited[i]) && Index(visited[i]) == Index(start) + i
    {
      IterateAdvances(start, i);
    }
  }
}

=== FILE: entries.dfy ===
/** Normalisation of one statement row into a stored entry: the cell texts,
    with the currency column's decimal commas turned into dots, the amount
    repaired and signed, and three derived fields appended (payee, out, in). */
module Entries {
  import opened Text
  import opened Results
  import opened Patterns

  const DescriptionColumn: nat := 2
  const KindColumn: nat := 4
  const CurrencyColumn: nat := 5
  const AmountColumn: nat := 6

  /** The fewest cells a non-empty row can have without an index error. */
  const MinCells: nat := 7

  /** `re.match(r"Debet", kind)`: the indicator starts with "Debet". */
  predicate IsDebit(kind: string) {
    StartsWith(kind, "Debet")
  }

  /** The texts of a row's `td` cells, each flattened and stripped. */
  function RowTexts(raw: seq<string>): (cells: seq<string>)
    ensures |cells| == |raw|
    ensures forall i :: 0 <= i < |raw| ==> cells[i] == CellText(raw[i])
  {
    if raw == [] then [] else [CellText(raw[0])] + RowTexts(raw[1..])
  }

  /** The record stored for a row of at least seven cell texts. */
  function Normalize(cells: seq<string>): (record: seq<string>)
    requires |cells| >= MinCells
    ensures |record| == |cells| + 3
    ensures forall i :: 0 <= i < |cells| && i != CurrencyColumn && i != AmountColumn
              ==> record[i] == cells[i]
    ensures record[CurrencyColumn] == Replace(cells[CurrencyColumn], ',', '.')
    ensures PayeeOf(record) == Payee(cells[DescriptionColumn])
    ensures var amount := RepairAmount(cells[AmountColumn]);
            if IsDebit(cells[KindColumn]) then
              OutOf(record) == amount && InOf(record) == "" && record[AmountColumn] == "-" + amount
            else
              OutOf(record) == "" && InOf(record) == amount && record[AmountColumn] == amount
  {
    var amount := RepairAmount(cells[AmountColumn]);
    var debit := IsDebit(cells[KindColumn]);
    var signed := if debit then "-" + amount else amount;
    var fixed := cells[CurrencyColumn := Replace(cells[CurrencyColumn], ',', '.')][AmountColumn := signed];
    var payee := Payee(cells[DescriptionColumn]);
    var split := if debit then [payee, amount, ""] else [payee, "", amount];
    KeepsOtherColumns(cells, fixed, split);
    fixed + split
  }

  /** Appending the three derived fields leaves the row's own columns where
      they were. */
  lemma KeepsOtherColumns(cells: seq<string>, fixed: seq<string>, split: seq<string>)
    requires |fixed| == |cells| >= MinCells && |split| == 3
    requires forall i :: 0 <= i < |cells| && i != CurrencyColumn && i != AmountColumn ==> fixed[i] == cells[i]
    ensures forall i :: 0 <= i < |cells| && i != CurrencyColumn && i != AmountColumn ==> (fixed + split)[i] == cells[i]
  {
  }

  function PayeeOf(record: seq<string>): string
    requires |record| >= 3
  {
    record[|record| - 3]
  }

  function OutOf(record: seq<string>): string
    requires |record| >= 3
  {
    record[|record| - 2]
  }

  function InOf(record: seq<string>): string
    requires |record| >= 3
  {
    record[|record| - 1]
  }

  /** `__get_entry` on the raw texts of a row's cells: no entry for a row
      without cells, an index error for one with one to six cells, and the
      normalised record otherwise. */
  function GetEntry(raw: seq<string>): (r: Result<Option<seq<string>>>)
    ensures r == Ok(None) <==> |raw| == 0
    ensures r.Err? <==> 0 < |raw| < MinCells
    ensures r.Err? ==> r.error == IndexError
    ensures r.Ok? && r.value.Some? ==> |r.value.value| == |raw| + 3 && r.value.value == Normalize(RowTexts(raw))
  {
    var cells := RowTexts(raw);
    if |cells| == 0 then Ok(None)
    else if |cells| < MinCells then Err(IndexError)
    else Ok(Some(Normalize(cells)))
  }

  /** The signed amount and the out/in split agree: at most one of out and
      in is filled, the stored amount is that value with a minus sign for a
      debit, and a non-empty amount cell fills exactly one of them. */
  lemma SplitAgreesWithSignedAmount(cells: seq<string>)
    requires |cells| >= MinCells
    ensures var record := Normalize(cells);
            && (OutOf(record) == "" || InOf(record) == "")
            && record[AmountColumn] == (if IsDebit(cells[KindColumn]) then "-" else "") + OutOf(record) + InOf(record)
            && (cells[AmountColumn] != "" ==> (OutOf(record) == "" <==> InOf(record) != ""))
            && (cells[AmountColumn] != "" ==> (IsDebit(cells[KindColumn]) <==> OutOf(record) != ""))
  {
  }

  /** The invariants a stored entry keeps: the currency column holds no
      comma, the payee is a prefix of the description, only one of out and
      in is filled, and a repaired amount is a plain `D1.D2` decimal. */
  lemma EntryInvariants(raw: seq<string>)
    requires |raw| >= MinCells
    ensures GetEntry(raw).Ok? && GetEntry(raw).value.Some?
    ensures var record := GetEntry(raw).value.value;
            var cells := RowTexts(raw);
            && ',' !in record[CurrencyColumn]
            && StartsWith(record[DescriptionColumn], PayeeOf(record))
            && (OutOf(record) == "" || InOf(record) == "")
            && ((exists k :: AmountMatchAt(cells[AmountColumn], k)) ==>
                  IsPlainDecimal(OutOf(record) + InOf(record)) && ',' !in OutOf(record) + InOf(record))
  {
    var cells := RowTexts(raw);
    assert GetEntry(raw) == Ok(Some(Normalize(cells)));
    StoredFieldsAreClean(cells);
    SplitAgreesWithSignedAmount(cells);
  }

  lemma StoredFieldsAreClean(cells: seq<string>)
    requires |cells| >= MinCells
    requires '\n' !in cells[DescriptionColumn] && '\n' !in cells[AmountColumn]
    ensures var record := Normalize(cells);
            && ',' !in record[CurrencyColumn]
            && StartsWith(record[DescriptionColumn], PayeeOf(record))
            && ((exists k :: AmountMatchAt(cells[AmountColumn], k)) ==>
                  IsPlainDecimal(OutOf(record) + InOf(record)) && ',' !in OutOf(record) + InOf(record))
  {
    var record := Normalize(cells);
    var description := cells[DescriptionColumn];
    PayeeIsPrefix(description);
    assert record[DescriptionColumn] == description;
    assert PayeeOf(record) == Payee(description);
    var amount := cells[AmountColumn];
    assert OutOf(record) + InOf(record) == RepairAmount(amount);
    if exists k :: AmountMatchAt(amount, k) {
      RepairedMatchIsDecimal(amount);
    }
  }
}

=== FILE: examples.dfy ===
/** Worked cases of the normaliser, including the two where its regular
    expressions do less than one might expect: a dot used as a thousands
    separator defeats the amount repair, and the three word characters
    before `Land:` are not part of the payee. */
module Examples {
  import opened Text
  import opened Results
  import opened Patterns
  import opened Periods
  import opened Driver

  /** December rolls over into January of the next year. */
  lemma IncrementExamples()
    ensures IncrementMonth(Period(2020, 12)) == Period(2021, 1)
    ensures IncrementMonth(Period(2020, 5)) == Period(2020, 6)
  {
  }

  const WithCode: string := "EUR 12,50"

  /** A space before the digits: the amount becomes `D1.D2`. */
  lemma AmountWithCurrencyCode()
    ensures RepairAmount(WithCode) == "12.50"
  {
    WithCodeMatch();
    WithCodeNoLaterMatch();
    WithCodePieces();
    RepairedAmountIsDecimal(WithCode, 3);
  }

  lemma WithCodePieces()
    ensures '\n' !in WithCode
    ensures WithCode[4..6] + "." + WithCode[7..9] == "12.50"
  {
    assert WithCode[4..6] == "12" && WithCode[7..9] == "50";
  }

  lemma WithCodeMatch()
    ensures RunEnd(WithCode, 4, IsDigit) == 6
    ensures RunEnd(WithCode, 7, IsDigit) == 9
    ensures AmountMatchAt(WithCode, 3)
  {
    var a := WithCode;
    assert RunEnd(a, 4, IsDigit) == 6 by {
      assert IsDigit(a[4]) && IsDigit(a[5]) && !IsDigit(a[6]);
    }
    assert RunEnd(a, 7, IsDigit) == 9;
  }

  lemma WithCodeNoLaterMatch()
    ensures forall k :: 3 < k ==> !AmountMatchAt(WithCode, k)
  {
    var a := WithCode;
    forall k | 3 < k
      ensures !AmountMatchAt(a, k)
    {
      if 3 < k < |a| {
        assert !IsSpace(a[k]);
      }
    }
  }

  /** A dot as thousands separator: no whitespace precedes the digits just
      before the comma, so the amount is left as it was. */
  lemma AmountWithThousandsDot()
    ensures RepairAmount("€ 1.234,56") == "€ 1.234,56"
  {
    var b := "€ 1.234,56";
    assert |b| == 10;
    assert RunEnd(b, 2, IsDigit) == 3 by {
      assert IsDigit(b[2]) && !IsDigit(b[3]);
    }
    assert !AmountMatchAt(b, 1);
    assert !IsSpace(b[2]) && !IsSpace(b[3]) && !IsSpace(b[4]) && !IsSpace(b[5]);
    assert !IsSpace(b[6]) && !IsSpace(b[7]) && !IsSpace(b[8]) && !IsSpace(b[9]);
    assert LastAmountMatch(b, 1) == None;
    assert LastAmountMatch(b, 2) == None;
    assert LastAmountMatch(b, 10) == None;
  }

  /** A space as thousands separator: only the last group survives. */
  lemma AmountWithThousandsSpace()
    ensures RepairAmount("€ 1 234,56") == "234.56"
  {
    var c := "€ 1 234,56";
    assert |c| == 10;
    assert RunEnd(c, 4, IsDigit) == 7 by {
      assert IsDigit(c[4]) && IsDigit(c[5]) && IsDigit(c[6]) && !IsDigit(c[7]);
    }
    assert RunEnd(c, 8, IsDigit) == 10;
    assert AmountMatchAt(c, 3);
    assert !IsSpace(c[4]) && !IsSpace(c[5]) && !IsSpace(c[6]);
    assert !IsSpace(c[7]) && !IsSpace(c[8]) && !IsSpace(c[9]);
    assert LastAmountMatch(c, 10) == Some(3);
    assert RunEnd(c, 10, IsNotNewline) == 10;
    assert AmountReplacement(c, 3) == c[4..7] + "." + c[8..10] + c[10..];
    assert c[4..7] + "." + c[8..10] + c[10..] == "234.56";
  }

  const Description: string := "ALBERT HEIJN 1234 AMS Land: NLD"

  lemma DescriptionTail()
    ensures CountryTailAt(Description, 17)
  {
    var d := Description;
    assert |d| == 31;
    assert RunEnd(d, 21, IsSpace) == 22 by {
      assert IsSpace(d[21]) && !IsSpace(d[22]);
    }
    assert d[22..27] == "Land:";
  }

  lemma DescriptionHasNoNewline()
    ensures '\n' !in Description
  {
  }

  lemma NoEarlierTail(g: int)
    requires 0 < g < 17
    ensures !CountryTailAt(Description, g)
  {
    var d := Description;
    assert |d| == 31;
    if g == 6 {
      assert RunEnd(d, 10, IsSpace) == 10 by { assert !IsSpace(d[10]); }
    } else if g == 12 {
      assert RunEnd(d, 16, IsSpace) == 16 by { assert !IsSpace(d[16]); }
    } else {
      assert d[g] != ' ';
    }
  }

  /** `\w{3}` takes the city code, so the payee stops before it. */
  lemma PayeeStopsBeforeCode()
    ensures Payee(Description) == "ALBERT HEIJN 1234"
  {
    var d := Description;
    DescriptionMatch();
    NoShorterMatch();
    assert d[0..17] == "ALBERT HEIJN 1234";
  }

  lemma DescriptionMatch()
    ensures PayeeMatch(Description, 0, 17)
  {
    DescriptionTail();
    DescriptionHasNoNewline();
    assert forall c :: c in Description[0..17] ==> c in Description;
  }

  lemma NoShorterMatch()
    ensures forall g :: g < 17 ==> !PayeeMatch(Description, 0, g)
  {
    forall g | g < 17
      ensures !PayeeMatch(Description, 0, g)
    {
      if 0 < g {
        NoEarlierTail(g);
      }
    }
  }

  /** Only `-m 11` given in October 2026: the start is November 2026, the
      end defaults to October 2026, and the loop never meets it. */
  lemma LateStartNeverEnds(k: nat)
    ensures var today := Period(2026, 10);
            var opts := Options(Some(11), None, None, None, None);
            Iterate(StartPeriod(today, opts), k) != EndPeriod(today, opts)
  {
    NeverReached(Period(2026, 11), Period(2026, 10), k);
  }
}

=== FILE: patterns.dfy ===
/** The two fixed regular expressions the entry normaliser applies, each as
    an explicit match predicate plus a function that finds the match Python's
    backtracking engine reports. */
module Patterns {
  import opened Text
  import opened Results

  // ---------------------------------------------------------------------
  // Amount repair: re.sub(r"^.+\s(\d+),(\d+).*", r"\1.\2", amount)
  // ---------------------------------------------------------------------

  /** The amount pattern matches with its `.+` ending just before index `k`:
      a non-empty newline-free prefix, one whitespace character at `k`, then
      the digit run starting at `k + 1`, a comma, and at least one digit. */
  predicate AmountMatchAt(s: string, k: int) {
    && 1 <= k < |s|
    && '\n' !in s[..k]
    && IsSpace(s[k])
    && (var j := RunEnd(s, k + 1, IsDigit);
        k + 1 < j < |s| - 1 && s[j] == ',' && IsDigit(s[j + 1]))
  }

  /** What the substitution leaves when the match ends its `.+` at `k`:
      group 1, a dot, group 2, and whatever follows the first newline after
      the match (`.*` stops there). */
  function AmountReplacement(s: string, k: nat): string
    requires AmountMatchAt(s, k)
  {
    var j := RunEnd(s, k + 1, IsDigit);
    var m := RunEnd(s, j + 1, IsDigit);
    var e := RunEnd(s, m, IsNotNewline);
    s[k + 1..j] + "." + s[j + 1..m] + s[e..]
  }

  /** The largest `k < hi` at which the amount pattern matches: the greedy
      `.+` tries the longest prefix first. */
  function LastAmountMatch(s: string, hi: nat): (r: Option<nat>)
    requires hi <= |s|
    ensures r.Some? ==> r.value < hi && AmountMatchAt(s, r.value)
    ensures r.Some? ==> forall k :: r.value < k < hi ==> !AmountMatchAt(s, k)
    ensures r.None? ==> forall k :: k < hi ==> !AmountMatchAt(s, k)
    decreases hi
  {
    if hi == 0 then None
    else if AmountMatchAt(s, hi - 1) then Some(hi - 1)
    else LastAmountMatch(s, hi - 1)
  }

  /** The amount column after the repair: unchanged when the pattern does not
      match; otherwise rewritten from the match that ends `.+` latest. */
  function RepairAmount(s: string): (r: string)
    ensures (forall k :: !AmountMatchAt(s, k)) ==> r == s
    ensures forall k :: AmountMatchAt(s, k) && (forall k' :: k < k' ==> !AmountMatchAt(s, k'))
              ==> r == AmountReplacement(s, k)
    ensures r != s <==> exists k :: AmountMatchAt(s, k)
    ensures |r| == 0 <==> |s| == 0
  {
    match LastAmountMatch(s, |s|)
    case None => s
    case Some(k) =>
      ReplacementIsShorter(s, k);
      LastMatchIsTheRightmost(s);
      AmountReplacement(s, k)
  }

  /** The search finds the one match after which no other exists. */
  lemma LastMatchIsTheRightmost(s: string)
    ensures forall k :: AmountMatchAt(s, k) && (forall k' :: k < k' ==> !AmountMatchAt(s, k'))
              ==> LastAmountMatch(s, |s|) == Some(k)
  {
    forall k | AmountMatchAt(s, k) && (forall k' :: k < k' ==> !AmountMatchAt(s, k'))
      ensures LastAmountMatch(s, |s|) == Some(k)
    {
      NoLaterMatchIsLast(s, k);
    }
  }

  lemma NoLaterMatchIsLast(s: string, k: nat)
    requires AmountMatchAt(s, k)
    requires forall k' :: k < k' ==> !AmountMatchAt(s, k')
    ensures LastAmountMatch(s, |s|) == Some(k)
  {
    assert k < |s|;
    LastIsUnique(j => AmountMatchAt(s, j), |s|, LastAmountMatch(s, |s|), k);
  }

  /** A search result with the three properties of `LastAmountMatch` is the
      one match that has no later match, whatever the match test. */
  lemma LastIsUnique(matches: int -> bool, hi: nat, r: Option<nat>, k: nat)
    requires r.Some? ==> r.value < hi && matches(r.value)
    requires r.Some? ==> forall j :: r.value < j < hi ==> !matches(j)
    requires r.None? ==> forall j :: j < hi ==> !matches(j)
    requires k < hi && matches(k) && forall j :: k < j ==> !matches(j)
    ensures r == Some(k)
  {
  }

  /** The replacement drops at least the `.+` prefix and the whitespace, but
      always keeps the dot. */
  lemma ReplacementIsShorter(s: string, k: nat)
    requires AmountMatchAt(s, k)
    ensures 0 < |AmountReplacement(s, k)| < |s|
  {
    var j := RunEnd(s, k + 1, IsDigit);
    var m := RunEnd(s, j + 1, IsDigit);
    var e := RunEnd(s, m, IsNotNewline);
    assert |AmountReplacement(s, k)| == (j - k - 1) + 1 + (m - j - 1) + (|s| - e);
  }

  /** A plain decimal: digits, one dot, digits. */
  predicate IsPlainDecimal(r: string) {
    exists i :: 0 < i < |r| - 1 && DecimalPointAt(r, i)
  }

  predicate DecimalPointAt(r: string, i: int) {
    0 < i < |r| - 1 && r[i] == '.' && AllDigits(r[..i]) && AllDigits(r[i + 1..])
  }

  /** On a newline-free amount that the pattern matches, the repair leaves
      exactly `D1.D2`: group 1 is the whole digit run after the last
      whitespace that can start it, group 2 the whole digit run after the
      comma, everything else is dropped, and no comma survives. */
  lemma RepairedAmountIsDecimal(s: string, k: nat)
    requires '\n' !in s
    requires AmountMatchAt(s, k) && forall k' :: k < k' ==> !AmountMatchAt(s, k')
    ensures var j := RunEnd(s, k + 1, IsDigit);
            RepairAmount(s) == s[k + 1..j] + "." + s[j + 1..RunEnd(s, j + 1, IsDigit)]
    ensures IsPlainDecimal(RepairAmount(s))
    ensures ',' !in RepairAmount(s)
  {
    ReplacementWithoutNewline(s, k);
  }

  lemma ReplacementWithoutNewline(s: string, k: nat)
    requires '\n' !in s && AmountMatchAt(s, k)
    ensures var j := RunEnd(s, k + 1, IsDigit);
            AmountReplacement(s, k) == s[k + 1..j] + "." + s[j + 1..RunEnd(s, j + 1, IsDigit)]
    ensures IsPlainDecimal(AmountReplacement(s, k))
    ensures ',' !in AmountReplacement(s, k)
  {
    var j := RunEnd(s, k + 1, IsDigit);
    assert k + 1 < j < |s| - 1 && IsDigit(s[j + 1]);
    var m := RunEnd(s, j + 1, IsDigit);
    assert j + 1 < m;
    NewlineFreeRunsToEnd(s, m);
    GroupTwoRunsToEnd(s, k + 1, j);
    GroupTwoRunsToEnd(s, j + 1, m);
    var r := s[k + 1..j] + "." + s[j + 1..m];
    var e := RunEnd(s, m, IsNotNewline);
    EmptyTail(r, s, e);
    assert AmountReplacement(s, k) == r + s[e..];
    DigitsDotDigits(s[k + 1..j], s[j + 1..m]);
  }

  lemma EmptyTail(r: string, s: string, e: nat)
    requires e == |s|
    ensures r + s[e..] == r
  {
    assert s[e..] == [];
  }

  /** Whenever the pattern matches a newline-free amount, the repair yields a
      plain decimal without a comma. */
  lemma RepairedMatchIsDecimal(s: string)
    requires '\n' !in s && exists k :: AmountMatchAt(s, k)
    ensures IsPlainDecimal(RepairAmount(s)) && ',' !in RepairAmount(s)
  {
    var k0 :| AmountMatchAt(s, k0);
    var found := LastAmountMatch(s, |s|);
    assert found.Some?;
    var k := found.value;
    forall k' | k < k'
      ensures !AmountMatchAt(s, k')
    {
    }
    RepairedAmountIsDecimal(s, k);
  }

  lemma DigitsDotDigits(a: string, b: string)
    requires |a| > 0 && |b| > 0 && AllDigits(a) && AllDigits(b)
    ensures IsPlainDecimal(a + "." + b)
    ensures ',' !in a + "." + b
  {
    var r := a + "." + b;
    assert r[..|a|] == a;
    assert r[|a| + 1..] == b;
    assert DecimalPointAt(r, |a|);
    forall i | 0 <= i < |r|
      ensures r[i] != ','
    {
      if i < |a| {
        assert r[i] == a[i];
      } else if i > |a| {
        assert r[i] == b[i - |a| - 1];
      }
    }
  }

  /** Group 2 is a digit run. */
  lemma GroupTwoRunsToEnd(s: string, from: nat, m: nat)
    requires from <= m <= |s|
    requires forall i :: from <= i < m ==> IsDigit(s[i])
    ensures AllDigits(s[from..m])
  {
  }

  lemma NewlineFreeRunsToEnd(s: string, m: nat)
    requires m <= |s| && '\n' !in s
    ensures RunEnd(s, m, IsNotNewline) == |s|
  {
  }

  // ---------------------------------------------------------------------
  // Payee: re.compile(r"(.+?)\s\w{3}\s+Land:").search(description)
  // ---------------------------------------------------------------------

  /** The tail `\s\w{3}\s+Land:` matches starting at `g`. The greedy `\s+`
      can only be followed by `L` at the end of its whitespace run, so that
      is where `Land:` must start. */
  predicate CountryTailAt(s: string, g: int) {
    && 0 <= g && g + 4 < |s|
    && IsSpace(s[g])
    && IsWordChar(s[g + 1]) && IsWordChar(s[g + 2]) && IsWordChar(s[g + 3])
    && (var t := RunEnd(s, g + 4, IsSpace);
        g + 4 < t && t + 5 <= |s| && s[t..t + 5] == "Land:")
  }

  /** The whole pattern matches from `i` with group 1 being `s[i..g]`. */
  predicate PayeeMatch(s: string, i: int, g: int) {
    0 <= i < g <= |s| && '\n' !in s[i..g] && CountryTailAt(s, g)
  }

  /** The lazy `(.+?)` from `i`: the least `g'` from `g` on that completes a
      match, trying one more character at a time and giving up at a newline. */
  function ShortestPayeeEnd(s: string, i: nat, g: nat): (r: Option<nat>)
    requires i < g <= |s| && '\n' !in s[i..g - 1]
    ensures r.Some? ==> g <= r.value && PayeeMatch(s, i, r.value)
    ensures r.Some? ==> forall g' :: g <= g' < r.value ==> !PayeeMatch(s, i, g')
    ensures r.None? ==> forall g' :: g <= g' ==> !PayeeMatch(s, i, g')
    decreases |s| - g
  {
    if s[g - 1] == '\n' then
      assert forall g' :: g <= g' <= |s| ==> s[g - 1] in s[i..g'];
      None
    else
      assert s[i..g] == s[i..g - 1] + [s[g - 1]];
      if CountryTailAt(s, g) then Some(g)
      else if g == |s| then None
      else ShortestPayeeEnd(s, i, g + 1)
  }

  /** `search`: the leftmost start `i' >= i` at which the pattern matches,
      with the shortest group there. */
  function SearchPayee(s: string, i: nat): (r: Option<(nat, nat)>)
    ensures r.Some? ==> i <= r.value.0 && PayeeMatch(s, r.value.0, r.value.1)
    ensures r.Some? ==> forall i', g' :: i <= i' < r.value.0 ==> !PayeeMatch(s, i', g')
    ensures r.Some? ==> forall g' :: g' < r.value.1 ==> !PayeeMatch(s, r.value.0, g')
    ensures r.None? ==> forall i', g' :: i <= i' ==> !PayeeMatch(s, i', g')
    decreases |s| - i
  {
    if i >= |s| then None
    else
      LazyGroupFrom(s, i);
      match ShortestPayeeEnd(s, i, i + 1)
      case Some(g) => Some((i, g))
      case None => SearchPayee(s, i + 1)
  }

  /** What the lazy group finds from start `i`, in terms of every end. */
  lemma LazyGroupFrom(s: string, i: nat)
    requires i < |s|
    ensures ShortestPayeeEnd(s, i, i + 1).None? ==> forall g :: !PayeeMatch(s, i, g)
    ensures ShortestPayeeEnd(s, i, i + 1).Some? ==>
              forall g :: g < ShortestPayeeEnd(s, i, i + 1).value ==> !PayeeMatch(s, i, g)
  {
  }

  /** The payee: group 1 of the leftmost, shortest match, or the whole
      description when there is none. */
  function Payee(description: string): (payee: string)
    ensures (forall i, g :: !PayeeMatch(description, i, g)) ==> payee == description
    ensures forall i, g ::
              && PayeeMatch(description, i, g)
              && (forall i', g' :: i' < i ==> !PayeeMatch(description, i', g'))
              && (forall g' :: g' < g ==> !PayeeMatch(description, i, g'))
              ==> payee == description[i..g]
  {
    SearchFindsLeftmostShortest(description);
    match SearchPayee(description, 0)
    case None => description
    case Some((i, g)) => description[i..g]
  }

  /** The search from the start reports the one leftmost, shortest match. */
  lemma SearchFindsLeftmostShortest(s: string)
    ensures forall i, g ::
              && PayeeMatch(s, i, g)
              && (forall i', g' :: i' < i ==> !PayeeMatch(s, i', g'))
              && (forall g' :: g' < g ==> !PayeeMatch(s, i, g'))
              ==> SearchPayee(s, 0) == Some((i, g))
  {
    forall i, g |
      && PayeeMatch(s, i, g)
      && (forall i', g' :: i' < i ==> !PayeeMatch(s, i', g'))
      && (forall g' :: g' < g ==> !PayeeMatch(s, i, g'))
      ensures SearchPayee(s, 0) == Some((i, g))
    {
      var found := SearchPayee(s, 0);
      assert found.Some?;
      var (i0, g0) := found.value;
      assert PayeeMatch(s, i0, g0);
      assert !(i < i0);
      assert i0 == i;
      assert !(g < g0);
    }
  }

  /** On a newline-free description the payee is always a prefix: the
      shortest non-empty one followed by the country tail, or the whole text. */
  lemma PayeeIsPrefix(description: string)
    requires '\n' !in description
    ensures StartsWith(description, Payee(description))
    ensures var n := |Payee(description)|;
            || Payee(description) == description
            || (0 < n && CountryTailAt(description, n)
                && forall g :: 0 < g < n ==> !CountryTailAt(description, g))
    ensures (exists g :: 0 < g && CountryTailAt(description, g)) ==> Payee(description) != description
  {
    var d := description;
    forall i, g | 0 <= i < g <= |d|
      ensures '\n' !in d[..g] && '\n' !in d[i..g]
    {
      assert forall c :: c in d[..g] ==> c in d;
      assert forall c :: c in d[i..g] ==> c in d;
    }
    match SearchPayee(d, 0)
    case None =>
      forall g | 0 < g
        ensures !CountryTailAt(d, g)
      {
        assert !PayeeMatch(d, 0, g);
      }
    case Some((i, g)) =>
      assert PayeeMatch(d, 0, g);
      assert i == 0;
      forall g' | 0 < g' < g
        ensures !CountryTailAt(d, g')
      {
        assert !PayeeMatch(d, 0, g');
      }
      assert |d[..g]| < |d| by {
        assert g + 4 < |d|;
      }
  }
}

=== FILE: period.dfy ===
/** A statement period: a calendar year and month, stepped one month at a
    time and rendered as the `YYYYMM` key of the statement request. */
module Periods {
  import opened Text
  import opened Decimal
  import opened Results

  /** Neither field is validated: a caller may build any month number. */
  datatype Period = Period(year: int, month: int)

  predicate Valid(p: Period) {
    1 <= p.month <= 12
  }

  /** The number of months from January of year 0 to `p`. */
  function Index(p: Period): int {
    p.year * 12 + (p.month - 1)
  }

  /** The valid period `n` months after January of year 0. */
  function FromIndex(n: int): (p: Period)
    ensures Valid(p) && Index(p) == n
  {
    Period(n / 12, n % 12 + 1)
  }

  /** A valid period is the one its month count names. */
  lemma IndexDetermines(p: Period)
    requires Valid(p)
    ensures FromIndex(Index(p)) == p
  {
  }

  /** `increment_month`: December rolls over to January of the next year,
      any other month number just goes up by one. */
  function IncrementMonth(p: Period): (r: Period)
    ensures Index(r) == Index(p) + 1
    ensures Valid(p) ==> Valid(r)
    ensures r.year != p.year <==> p.month == 12
    ensures r.year == p.year || r.year == p.year + 1
  {
    if p.month == 12 then Period(p.year + 1, 1) else Period(p.year, p.month + 1)
  }

  /** The period reached from `p` by `k` calls of `increment_month`. */
  function Iterate(p: Period, k: nat): Period {
    if k == 0 then p else IncrementMonth(Iterate(p, k - 1))
  }

  /** Stepping a period `k` times advances its month count by exactly `k`,
      and a valid period stays valid. */
  lemma {:induction false} IterateAdvances(p: Period, k: nat)
    ensures Index(Iterate(p, k)) == Index(p) + k
    ensures Valid(p) ==> Valid(Iterate(p, k))
  {
    if k > 0 {
      IterateAdvances(p, k - 1);
    }
  }

  /** `str(period)`: the year formatted as `{0:04d}` followed by the month
      formatted as `{1:02d}`. */
  function Format(p: Period): (r: string)
    ensures 0 <= p.month <= 99 ==> ParsePeriod(r) == Some(p)
    ensures 0 <= p.year <= 9999 && 0 <= p.month <= 99 ==> |r| == 6 && AllDigits(r)
  {
    var y := FormatInt(p.year, 4);
    var m := FormatInt(p.month, 2);
    var r := y + m;
    if 0 <= p.month <= 99 then
      assert Pow10(2) == 100;
      assert r[..|r| - 2] == y && r[|r| - 2..] == m;
      r
    else
      r
  }

  /** Reads a request key back: everything but the last two characters is
      the (possibly signed) year, the last two are the month. */
  function ParsePeriod(s: string): Option<Period> {
    if |s| >= 3 && IsIntText(s[..|s| - 2]) && AllDigits(s[|s| - 2..]) then
      Some(Period(ParseInt(s[..|s| - 2]), Value(s[|s| - 2..])))
    else
      None
  }

  /** Distinct periods are requested under distinct keys. */
  lemma FormatInjective(p: Period, q: Period)
    requires 0 <= p.month <= 99 && 0 <= q.month <= 99
    requires Format(p) == Format(q)
    ensures p == q
  {
  }

  const StatementBaseUrl: string := "https://www.icscards.nl/abnamro/mijn/accountstatements?period="

  /** The page `get_statement` downloads for `p`: the fixed base address
      followed by the period key, from which the period can be read back. */
  function StatementUrl(p: Period): (url: string)
    ensures StartsWith(url, StatementBaseUrl)
    ensures 0 <= p.month <= 99 ==> ParsePeriod(url[|StatementBaseUrl|..]) == Some(p)
  {
    var url := StatementBaseUrl + Format(p);
    assert url[|StatementBaseUrl|..] == Format(p);
    url
  }

  /** The key of January 2012, the default `Period()`. */
  lemma FormatExample()
    ensures Format(Period(2012, 1)) == "201201"
  {
    assert Pow10(4) == 10000 && Pow10(2) == 100;
    assert Digits(2012) == "2012" by {
      assert Digits(2) == "2";
      assert Digits(20) == "20";
      assert Digits(201) == "201";
    }
    assert Digits(1) == "1";
  }
}

=== FILE: results.dfy ===
/** Failure-carrying values for the statement reader: an optional value, the
    exceptions the reader raises, and a result that is either a value or one of
    those exceptions. */
module Results {

  datatype Option<+T> = None | Some(value: T) {
    /** The value if there is one, otherwise `default`. */
    function GetOr(default: T): T {
      match this
      case Some(v) => v
      case None => default
    }
  }

  /** The exceptions that abort a download run. */
  datatype Failure =
    | IndexError              // a non-empty row with fewer than seven cells
    | NoStatementTable        // the page holds no statement table
    | TooManyStatementTables  // the page holds more than one statement table

  datatype Result<+T> = Ok(value: T) | Err(error: Failure)

  /** The text the run reports on the error stream before exiting. */
  function Message(f: Failure): (text: string)
    ensures |text| > 0
  {
    match f
    case IndexError => "list index out of range"
    case NoStatementTable => "No statement table found"
    case TooManyStatementTables => "Too many statement tables found"
  }

  /** The reported text tells the three failures apart. */
  lemma MessageIdentifiesFailure(f: Failure, g: Failure)
    requires Message(f) == Message(g)
    ensures f == g
  {
  }
}

=== FILE: statement.dfy ===
/** The statement reader: it accepts the one statement table of a page,
    captures the column headers the first time, and appends one entry per
    row that has cells. The run over several periods threads one reader
    through every page in turn. */
module Statement {
  import opened Results
  import opened Entries

  /** A statement table as the page presents it: the texts of its `th`
      cells, and for each `tr` row the raw texts of its `td` cells (the
      header row has none). */
  datatype Table = Table(headerCells: seq<string>, rows: seq<seq<string>>)

  /** What the reader has collected so far. */
  datatype Reader = Reader(headers: seq<string>, entries: seq<seq<string>>)

  const EmptyReader: Reader := Reader([], [])

  /** The headers appended after the table's own. */
  const DerivedHeaders: seq<string> := ["payee", "out", "in"]

  /** A row `__get_entry` gets through: no cells, or at least seven. */
  predicate RowFits(row: seq<string>) {
    |row| == 0 || |row| >= MinCells
  }

  function CountNonEmpty(rows: seq<seq<string>>): nat {
    if rows == [] then 0
    else CountNonEmpty(rows[..|rows| - 1]) + (if rows[|rows| - 1] == [] then 0 else 1)
  }

  /** What `__get_entry` makes of one row: no entry, a record, or an error. */
  type Outcome = Result<Option<seq<string>>>

  /** The loop of `__parse_table`: `entry` applied to every row in order,
      each record appended, the first error ending the loop. */
  function Collect(rows: seq<seq<string>>, entry: seq<string> -> Outcome): Result<seq<seq<string>>>
    decreases |rows|
  {
    if rows == [] then Ok([])
    else Extend(Collect(rows[..|rows| - 1], entry), entry(rows[|rows| - 1]))
  }

  /** One more row's outcome added to the entries so far. */
  function Extend(sofar: Result<seq<seq<string>>>, outcome: Outcome): Result<seq<seq<string>>> {
    match sofar
    case Err(e) => Err(e)
    case Ok(es) =>
      match outcome
      case Err(e) => Err(e)
      case Ok(None) => Ok(es)
      case Ok(Some(record)) => Ok(es + [record])
  }

  /** The record `__get_entry` stores for a row with at least seven cells. */
  function RecordOf(row: seq<string>): seq<string> {
    if |row| >= MinCells then Normalize(RowTexts(row)) else []
  }

  /** The row-level promises of `__get_entry` that the table level relies
      on, with `record` naming the record a row yields. */
  ghost predicate ActsLikeGetEntry(entry: seq<string> -> Outcome, record: seq<string> -> seq<string>) {
    forall row ::
      && (entry(row).Ok? <==> RowFits(row))
      && (entry(row).Err? ==> entry(row).error == IndexError)
      && (entry(row) == Ok(None) <==> row == [])
      && (entry(row).Ok? && entry(row).value.Some? ==> |entry(row).value.value| >= MinCells + 3)
      && (entry(row).Ok? && entry(row).value.Some? ==> entry(row).value.value == record(row))
  }

  lemma GetEntryActsLikeGetEntry()
    ensures ActsLikeGetEntry(GetEntry, RecordOf)
  {
  }

  /** The table-level consequences of the row-level promises. */
  lemma {:induction false} CollectOutcome(rows: seq<seq<string>>, entry: seq<string> -> Outcome,
                                          record: seq<string> -> seq<string>)
    requires ActsLikeGetEntry(entry, record)
    ensures var r := Collect(rows, entry);
            && (r.Ok? <==> forall i :: 0 <= i < |rows| ==> RowFits(rows[i]))
            && (r.Err? ==> r.error == IndexError)
            && (r.Ok? ==> |r.value| == CountNonEmpty(rows))
            && (r.Ok? ==> forall e :: e in r.value ==> |e| >= MinCells + 3)
    decreases |rows|
  {
    if rows != [] {
      var init := rows[..|rows| - 1];
      var last := rows[|rows| - 1];
      CollectOutcome(init, entry, record);
      assert Collect(rows, entry) == Extend(Collect(init, entry), entry(last));
      assert CountNonEmpty(rows) == CountNonEmpty(init) + (if last == [] then 0 else 1);
      AllFitSplit(rows);
    }
  }

  /** Which record sits where: the record of the `k`-th non-empty row is
      entry number `k`, so the entries are the rows' records in row order. */
  lemma {:induction false} CollectRecords(rows: seq<seq<string>>, entry: seq<string> -> Outcome,
                                          record: seq<string> -> seq<string>)
    requires ActsLikeGetEntry(entry, record) && Collect(rows, entry).Ok?
    ensures var es := Collect(rows, entry).value;
            forall i :: 0 <= i < |rows| && rows[i] != [] ==>
              CountNonEmpty(rows[..i]) < |es| && es[CountNonEmpty(rows[..i])] == record(rows[i])
    decreases |rows|
  {
    if rows != [] {
      var init := rows[..|rows| - 1];
      var last := rows[|rows| - 1];
      assert Collect(rows, entry) == Extend(Collect(init, entry), entry(last));
      CollectOutcome(init, entry, record);
      CollectRecords(init, entry, record);
      var before := Collect(init, entry).value;
      var es := Collect(rows, entry).value;
      assert es == if last == [] then before else before + [record(last)];
      RecordsExtend(rows, before, es, record);
    }
  }

  /** The record positions survive one more row: an empty row adds nothing,
      a non-empty one adds its record at the end. */
  lemma RecordsExtend(rows: seq<seq<string>>, before: seq<seq<string>>, es: seq<seq<string>>,
                      record: seq<string> -> seq<string>)
    requires rows != []
    requires var init := rows[..|rows| - 1];
             && |before| == CountNonEmpty(init)
             && forall i :: 0 <= i < |init| && init[i] != [] ==>
                  CountNonEmpty(init[..i]) < |before| && before[CountNonEmpty(init[..i])] == record(init[i])
    requires var last := rows[|rows| - 1];
             es == if last == [] then before else before + [record(last)]
    ensures forall i :: 0 <= i < |rows| && rows[i] != [] ==>
              CountNonEmpty(rows[..i]) < |es| && es[CountNonEmpty(rows[..i])] == record(rows[i])
  {
    var init := rows[..|rows| - 1];
    var last := rows[|rows| - 1];
    assert es[..|before|] == before;
    forall i | 0 <= i < |rows| && rows[i] != []
      ensures CountNonEmpty(rows[..i]) < |es| && es[CountNonEmpty(rows[..i])] == record(rows[i])
    {
      if i < |init| {
        assert rows[..i] == init[..i];
        assert rows[i] == init[i];
        var c := CountNonEmpty(init[..i]);
        assert c < |before| && before[c] == record(init[i]);
        assert es[c] == es[..|before|][c];
      } else {
        assert rows[..i] == init;
        assert es[|before|] == record(last);
      }
    }
  }

  predicate AllFit(rows: seq<seq<string>>) {
    forall i :: 0 <= i < |rows| ==> RowFits(rows[i])
  }

  lemma AllFitSplit(rows: seq<seq<string>>)
    requires rows != []
    ensures AllFit(rows) <==> AllFit(rows[..|rows| - 1]) && RowFits(rows[|rows| - 1])
  {
    assert forall i :: 0 <= i < |rows| - 1 ==> rows[..|rows| - 1][i] == rows[i];
  }

  /** The entries a list of rows yields, row by row, or the index error of
      the first row that is too short. */
  function EntriesOf(rows: seq<seq<string>>): (r: Result<seq<seq<string>>>)
    ensures r.Ok? <==> forall i :: 0 <= i < |rows| ==> RowFits(rows[i])
    ensures r.Err? ==> r.error == IndexError
    ensures r.Ok? ==> |r.value| == CountNonEmpty(rows)
    ensures r.Ok? ==> forall e :: e in r.value ==> |e| >= MinCells + 3
    ensures r.Ok? ==> forall i :: 0 <= i < |rows| && rows[i] != [] ==>
              CountNonEmpty(rows[..i]) < |r.value| && r.value[CountNonEmpty(rows[..i])] == RecordOf(rows[i])
  {
    GetEntryActsLikeGetEntry();
    CollectOutcome(rows, GetEntry, RecordOf);
    if Collect(rows, GetEntry).Ok? then
      CollectRecords(rows, GetEntry, RecordOf);
      Collect(rows, GetEntry)
    else
      Collect(rows, GetEntry)
  }

  /** One row on its own: no entry when it has no cells, its normalised
      record when it has seven or more, an index error otherwise. */
  lemma EntriesOfOneRow(row: seq<string>)
    ensures row == [] ==> EntriesOf([row]) == Ok([])
    ensures 0 < |row| < MinCells ==> EntriesOf([row]) == Err(IndexError)
    ensures |row| >= MinCells ==> EntriesOf([row]) == Ok([Normalize(RowTexts(row))])
  {
    var rows := [row];
    var r := EntriesOf(rows);
    assert rows[0] == row && rows[..0] == [];
    assert CountNonEmpty(rows) == if row == [] then 0 else 1;
    if |row| >= MinCells {
      assert r.value[CountNonEmpty(rows[..0])] == RecordOf(rows[0]);
      assert r.value == [r.value[0]];
    }
  }

  /** `__parse_table`: exactly one table is accepted; the headers are
      captured from it only while the reader has none; its entries are
      appended after the ones already collected. */
  function ParseTable(reader: Reader, tables: seq<Table>): (r: Result<Reader>)
    ensures |tables| == 0 <==> r == Err(NoStatementTable)
    ensures |tables| > 1 <==> r == Err(TooManyStatementTables)
    ensures |tables| == 1 ==> (r.Ok? <==> forall i :: 0 <= i < |tables[0].rows| ==> RowFits(tables[0].rows[i]))
    ensures |tables| == 1 && r.Err? ==> r.error == IndexError
    ensures r.Ok? && reader.headers != [] ==> r.value.headers == reader.headers
    ensures r.Ok? && reader.headers == [] ==> r.value.headers == tables[0].headerCells + DerivedHeaders
    ensures r.Ok? ==> |r.value.entries| == |reader.entries| + CountNonEmpty(tables[0].rows)
    ensures r.Ok? ==> r.value.entries[..|reader.entries|] == reader.entries
    ensures r.Ok? ==> EntriesOf(tables[0].rows).Ok? && r.value.entries == reader.entries + EntriesOf(tables[0].rows).value
  {
    if |tables| < 1 then Err(NoStatementTable)
    else if |tables| > 1 then Err(TooManyStatementTables)
    else
      var table := tables[0];
      var headers := if |reader.headers| == 0 then table.headerCells + DerivedHeaders else reader.headers;
      match EntriesOf(table.rows)
      case Err(e) => Err(e)
      case Ok(es) =>
        var entries := reader.entries + es;
        assert entries[..|reader.entries|] == reader.entries;
        Ok(Reader(headers, entries))
  }

  /** What the run reports when a page is rejected: the texts of the two
      table-count exceptions, and Python's index error for a short row. */
  lemma ParseTableMessages(reader: Reader, tables: seq<Table>)
    ensures |tables| == 0 ==> Message(ParseTable(reader, tables).error) == "No statement table found"
    ensures |tables| > 1 ==> Message(ParseTable(reader, tables).error) == "Too many statement tables found"
    ensures |tables| == 1 && !AllFit(tables[0].rows) ==>
              Message(ParseTable(reader, tables).error) == "list index out of range"
  {
    if |tables| == 1 && !AllFit(tables[0].rows) {
      CollectOutcome(tables[0].rows, GetEntry, RecordOf);
    }
  }

  /** The run: `get_statement` for each period's page in order, the first
      failure aborting it. */
  function Download(reader: Reader, pages: seq<seq<Table>>): (r: Result<Reader>)
    ensures pages == [] ==> r == Ok(reader)
    ensures r.Ok? <==> AllPagesFit(pages)
    ensures r.Ok? ==> forall i :: 0 <= i < |pages| ==> |pages[i]| == 1
    ensures r.Ok? ==> r.value.entries == reader.entries + Concat(pages, TableEntries)
  {
    ParseTableActsLikeParseTable();
    ParseTableAppendsTableEntries();
    ParseTableSucceedsOnFittingPages();
    RunSucceeds(reader, pages, ParseTable);
    if Run(reader, pages, ParseTable).Ok? then
      RunOneTablePerPage(reader, pages, ParseTable);
      RunEntries(reader, pages, ParseTable, TableEntries);
      Run(reader, pages, ParseTable)
    else
      Run(reader, pages, ParseTable)
  }

  /** The entries a page's single statement table yields (none for a page
      `__parse_table` rejects). */
  function TableEntries(tables: seq<Table>): seq<seq<string>> {
    if |tables| == 1 && EntriesOf(tables[0].rows).Ok? then EntriesOf(tables[0].rows).value else []
  }

  /** The entries of every page in turn, one after the other. */
  function Concat(pages: seq<seq<Table>>, entriesOf: seq<Table> -> seq<seq<string>>): seq<seq<string>>
    decreases |pages|
  {
    if pages == [] then [] else Concat(pages[..|pages| - 1], entriesOf) + entriesOf(pages[|pages| - 1])
  }

  /** `step` applied to every page in order, the first error ending it. */
  function Run(reader: Reader, pages: seq<seq<Table>>, step: (Reader, seq<Table>) -> Result<Reader>): Result<Reader>
    decreases |pages|
  {
    if pages == [] then Ok(reader)
    else
      match Run(reader, pages[..|pages| - 1], step)
      case Err(e) => Err(e)
      case Ok(r) => step(r, pages[|pages| - 1])
  }

  /** The page-level promises of `__parse_table` that the run relies on:
      it only appends entries, and it takes the headers from the page's one
      table only while the reader has none. */
  ghost predicate ActsLikeParseTable(step: (Reader, seq<Table>) -> Result<Reader>) {
    forall reader: Reader, tables: seq<Table> ::
      step(reader, tables).Ok? ==>
        && |tables| == 1
        && |reader.entries| <= |step(reader, tables).value.entries|
        && step(reader, tables).value.entries[..|reader.entries|] == reader.entries
        && (reader.headers != [] ==> step(reader, tables).value.headers == reader.headers)
        && (reader.headers == [] ==> step(reader, tables).value.headers == tables[0].headerCells + DerivedHeaders)
  }

  lemma ParseTableActsLikeParseTable()
    ensures ActsLikeParseTable(ParseTable)
  {
  }

  /** A page step that appends exactly `entriesOf` of the page's tables. */
  ghost predicate AppendsEntries(step: (Reader, seq<Table>) -> Result<Reader>, entriesOf: seq<Table> -> seq<seq<string>>) {
    forall reader: Reader, tables: seq<Table> ::
      step(reader, tables).Ok? ==> step(reader, tables).value.entries == reader.entries + entriesOf(tables)
  }

  lemma ParseTableAppendsTableEntries()
    ensures AppendsEntries(ParseTable, TableEntries)
  {
  }

  /** A page `__parse_table` gets through: one statement table, every row
      of which is empty or has at least seven cells. */
  predicate PageFits(tables: seq<Table>) {
    |tables| == 1 && AllFit(tables[0].rows)
  }

  /** A page step that succeeds exactly on fitting pages, whatever the reader. */
  ghost predicate SucceedsOnFittingPages(step: (Reader, seq<Table>) -> Result<Reader>) {
    forall reader: Reader, tables: seq<Table> :: step(reader, tables).Ok? <==> PageFits(tables)
  }

  lemma ParseTableSucceedsOnFittingPages()
    ensures SucceedsOnFittingPages(ParseTable)
  {
  }

  /** A run succeeds exactly when every page fits. */
  lemma {:induction false} RunSucceeds(reader: Reader, pages: seq<seq<Table>>,
                                       step: (Reader, seq<Table>) -> Result<Reader>)
    requires SucceedsOnFittingPages(step)
    ensures Run(reader, pages, step).Ok? <==> AllPagesFit(pages)
    decreases |pages|
  {
    if pages != [] {
      var init := pages[..|pages| - 1];
      var last := pages[|pages| - 1];
      RunSucceeds(reader, init, step);
      AllPagesFitSplit(pages);
      var before := Run(reader, init, step);
      if before.Ok? {
        assert Run(reader, pages, step) == step(before.value, last);
        assert step(before.value, last).Ok? <==> PageFits(last);
      }
    }
  }

  predicate AllPagesFit(pages: seq<seq<Table>>) {
    forall i :: 0 <= i < |pages| ==> PageFits(pages[i])
  }

  lemma AllPagesFitSplit(pages: seq<seq<Table>>)
    requires pages != []
    ensures AllPagesFit(pages) <==> AllPagesFit(pages[..|pages| - 1]) && PageFits(pages[|pages| - 1])
  {
    var init := pages[..|pages| - 1];
    assert forall i :: 0 <= i < |init| ==> init[i] == pages[i];
  }

  /** Every page of a successful run held exactly one table. */
  lemma {:induction false} RunOneTablePerPage(reader: Reader, pages: seq<seq<Table>>,
                                              step: (Reader, seq<Table>) -> Result<Reader>)
    requires ActsLikeParseTable(step) && Run(reader, pages, step).Ok?
    ensures forall i :: 0 <= i < |pages| ==> |pages[i]| == 1
    decreases |pages|
  {
    if pages != [] {
      var init := pages[..|pages| - 1];
      RunStep(reader, pages, step);
      RunOneTablePerPage(reader, init, step);
      forall i | 0 <= i < |pages|
        ensures |pages[i]| == 1
      {
        if i < |init| {
          assert pages[i] == init[i];
        }
      }
    }
  }

  /** A successful run appends the pages' entries in page order. */
  lemma {:induction false} RunEntries(reader: Reader, pages: seq<seq<Table>>,
                                      step: (Reader, seq<Table>) -> Result<Reader>,
                                      entriesOf: seq<Table> -> seq<seq<string>>)
    requires AppendsEntries(step, entriesOf) && Run(reader, pages, step).Ok?
    ensures Run(reader, pages, step).value.entries == reader.entries + Concat(pages, entriesOf)
    decreases |pages|
  {
    if pages == [] {
      assert reader.entries + [] == reader.entries;
    } else {
      var init := pages[..|pages| - 1];
      var last := pages[|pages| - 1];
      RunStep(reader, pages, step);
      RunEntries(reader, init, step, entriesOf);
      var before := Concat(init, entriesOf);
      assert reader.entries + before + entriesOf(last) == reader.entries + (before + entriesOf(last));
    }
  }

  /** The last page of a successful run was handled by the reader the
      earlier pages left. */
  lemma RunStep(reader: Reader, pages: seq<seq<Table>>, step: (Reader, seq<Table>) -> Result<Reader>)
    requires pages != [] && Run(reader, pages, step).Ok?
    ensures Run(reader, pages[..|pages| - 1], step).Ok?
    ensures Run(reader, pages, step) == step(Run(reader, pages[..|pages| - 1], step).value, pages[|pages| - 1])
  {
  }

  lemma PrefixOfPrefix<T>(a: seq<T>, b: seq<T>, c: seq<T>)
    requires |a| <= |b| && b[..|a|] == a
    requires |b| <= |c| && c[..|b|] == b
    ensures |a| <= |c| && c[..|a|] == a
  {
    assert c[..|a|] == c[..|b|][..|a|];
  }

  /** Processing rows in two batches gives the entries of the first batch
      followed by those of the second. */
  lemma {:induction false} CollectAppend(a: seq<seq<string>>, b: seq<seq<string>>, entry: seq<string> -> Outcome)
    requires Collect(a, entry).Ok? && Collect(b, entry).Ok?
    ensures Collect(a + b, entry) == Ok(Collect(a, entry).value + Collect(b, entry).value)
    decreases |b|
  {
    if b == [] {
      assert a + b == a;
      assert Collect(a, entry).value + [] == Collect(a, entry).value;
    } else {
      var init := b[..|b| - 1];
      var last := b[|b| - 1];
      assert (a + b)[..|a + b| - 1] == a + init;
      assert (a + b)[|a + b| - 1] == last;
      CollectAppend(a, init, entry);
      ExtendAfter(Collect(a, entry).value, Collect(init, entry).value, entry(last));
    }
  }

  lemma ExtendAfter(x: seq<seq<string>>, y: seq<seq<string>>, outcome: Outcome)
    requires Extend(Ok(y), outcome).Ok?
    ensures Extend(Ok(x + y), outcome) == Ok(x + Extend(Ok(y), outcome).value)
  {
    if outcome.Ok? && outcome.value.Some? {
      assert x + y + [outcome.value.value] == x + (y + [outcome.value.value]);
    }
  }

  /** Rows parsed in two batches yield the first batch's entries followed by
      the second's. */
  lemma EntriesOfAppend(a: seq<seq<string>>, b: seq<seq<string>>)
    requires EntriesOf(a).Ok? && EntriesOf(b).Ok?
    ensures EntriesOf(a + b) == Ok(EntriesOf(a).value + EntriesOf(b).value)
  {
    CollectAppend(a, b, GetEntry);
  }

  /** Headers come from the first page only: after a successful run from a
      fresh reader they are that page's table headers plus the derived
      ones, whatever the later pages' tables say. */
  lemma HeadersCapturedOnce(pages: seq<seq<Table>>)
    requires |pages| >= 1 && Download(EmptyReader, pages).Ok?
    ensures |pages[0]| == 1
    ensures Download(EmptyReader, pages).value.headers == pages[0][0].headerCells + DerivedHeaders
  {
    ParseTableActsLikeParseTable();
    RunCapturesHeadersOnce(pages, ParseTable);
  }

  lemma {:induction false} RunCapturesHeadersOnce(pages: seq<seq<Table>>, step: (Reader, seq<Table>) -> Result<Reader>)
    requires ActsLikeParseTable(step)
    requires |pages| >= 1 && Run(EmptyReader, pages, step).Ok?
    ensures |pages[0]| == 1
    ensures Run(EmptyReader, pages, step).value.headers == pages[0][0].headerCells + DerivedHeaders
    decreases |pages|
  {
    var n := |pages|;
    var init := pages[..n - 1];
    RunStep(EmptyReader, pages, step);
    if n == 1 {
      assert init == [];
    } else {
      assert init[0] == pages[0];
      RunCapturesHeadersOnce(init, step);
    }
  }

  /** A run only ever appends: the entries of a longer run extend those of
      any shorter prefix of it. */
  lemma DownloadOnlyAppends(reader: Reader, pages: seq<seq<Table>>, n: nat)
    requires n <= |pages| && Download(reader, pages).Ok?
    ensures Download(reader, pages[..n]).Ok?
    ensures var before := Download(reader, pages[..n]).value.entries;
            var after := Download(reader, pages).value.entries;
            |before| <= |after| && after[..|before|] == before
  {
    ParseTableActsLikeParseTable();
    RunOnlyAppends(reader, pages, n, ParseTable);
  }

  lemma {:induction false} RunOnlyAppends(reader: Reader, pages: seq<seq<Table>>, n: nat,
                                          step: (Reader, seq<Table>) -> Result<Reader>)
    requires ActsLikeParseTable(step)
    requires n <= |pages| && Run(reader, pages, step).Ok?
    ensures Run(reader, pages[..n], step).Ok?
    ensures var before := Run(reader, pages[..n], step).value.entries;
            var after := Run(reader, pages, step).value.entries;
            |before| <= |after| && after[..|before|] == before
    decreases |pages|
  {
    var m := |pages|;
    if n < m {
      var init := pages[..m - 1];
      RunStep(reader, pages, step);
      assert init[..n] == pages[..n];
      RunOnlyAppends(reader, init, n, step);
      PrefixOfPrefix(Run(reader, pages[..n], step).value.entries, Run(reader, init, step).value.entries,
                     Run(reader, pages, step).value.entries);
    } else {
      assert pages[..n] == pages;
    }
  }
}

=== FILE: text.dfy ===
/** Character classes and the string operations the statement reader uses.
    Only ASCII is classified: a character outside ASCII is never whitespace,
    a digit or a word character here. */
module Text {

  /** Python's `\s` and `str.isspace`, restricted to ASCII. */
  predicate IsSpace(c: char) {
    c == ' ' || c == '\t' || c == '\n' || c == '\r' || c == '\U{000B}' || c == '\U{000C}'
    || ('\U{001C}' <= c <= '\U{001F}')
  }

  /** Python's `\d`, restricted to ASCII. */
  predicate IsDigit(c: char) {
    '0' <= c <= '9'
  }

  /** Python's `\w`, restricted to ASCII. */
  predicate IsWordChar(c: char) {
    'a' <= c <= 'z' || 'A' <= c <= 'Z' || IsDigit(c) || c == '_'
  }

  /** Any character the regular-expression `.` matches (everything but a newline). */
  predicate IsNotNewline(c: char) {
    c != '\n'
  }

  predicate AllDigits(s: string) {
    forall i :: 0 <= i < |s| ==> IsDigit(s[i])
  }

  predicate StartsWith(s: string, prefix: string) {
    |prefix| <= |s| && s[..|prefix|] == prefix
  }

  /** The end of the longest run of `inClass` characters that starts at `i`:
      what a greedy `x+` or `x*` consumes from there. */
  function RunEnd(s: string, i: nat, inClass: char -> bool): (j: nat)
    requires i <= |s|
    ensures i <= j <= |s|
    ensures forall k :: i <= k < j ==> inClass(s[k])
    ensures j == |s| || !inClass(s[j])
    decreases |s| - i
  {
    if i < |s| && inClass(s[i]) then RunEnd(s, i + 1, inClass) else i
  }

  /** `s.replace(from, to)` for single characters. */
  function Replace(s: string, from: char, to: char): (r: string)
    ensures |r| == |s|
    ensures forall i :: 0 <= i < |s| ==> r[i] == (if s[i] == from then to else s[i])
    ensures from != to ==> from !in r
  {
    if s == [] then []
    else [if s[0] == from then to else s[0]] + Replace(s[1..], from, to)
  }

  /** `s.lstrip()`: drops the leading whitespace. */
  function TrimStart(s: string): (r: string)
    ensures |r| <= |s| && r == s[|s| - |r|..]
    ensures forall k :: 0 <= k < |s| - |r| ==> IsSpace(s[k])
    ensures r == [] || !IsSpace(r[0])
    decreases |s|
  {
    if |s| > 0 && IsSpace(s[0]) then TrimStart(s[1..]) else s
  }

  /** `s.rstrip()`: drops the trailing whitespace. */
  function TrimEnd(s: string): (r: string)
    ensures |r| <= |s| && r == s[..|r|]
    ensures forall k :: |r| <= k < |s| ==> IsSpace(s[k])
    ensures r == [] || !IsSpace(r[|r| - 1])
    decreases |s|
  {
    if |s| > 0 && IsSpace(s[|s| - 1]) then TrimEnd(s[..|s| - 1]) else s
  }

  /** `s.strip()`: the part of `s` between its leading and its trailing
      whitespace. */
  function Strip(s: string): (r: string)
    ensures r == [] || (!IsSpace(r[0]) && !IsSpace(r[|r| - 1]))
    ensures exists i :: StrippedAt(s, r, i)
  {
    StripRemovesOnlySpace(s);
    TrimEnd(TrimStart(s))
  }

  lemma StripRemovesOnlySpace(s: string)
    ensures StrippedAt(s, TrimEnd(TrimStart(s)), |s| - |TrimStart(s)|)
  {
    var t := TrimStart(s);
    var r := TrimEnd(t);
    var i := |s| - |t|;
    assert t == s[i..];
    assert forall k :: 0 <= k < i ==> IsSpace(s[k]);
    assert forall k :: |r| <= k < |t| ==> IsSpace(t[k]);
    InnerSlice(s, t, r, i);
  }

  /** Whitespace-only ends of a suffix of `s` carry over to `s` itself. */
  lemma InnerSlice(s: string, t: string, r: string, i: nat)
    requires i <= |s| && t == s[i..] && |r| <= |t| && r == t[..|r|]
    requires forall k :: 0 <= k < i ==> IsSpace(s[k])
    requires forall k :: |r| <= k < |t| ==> IsSpace(t[k])
    ensures StrippedAt(s, r, i)
  {
    forall k | i + |r| <= k < |s|
      ensures IsSpace(s[k])
    {
      assert s[k] == t[k - i];
    }
  }

  /** `r` is `s` with exactly the whitespace before index `i` and after
      `i + |r|` removed. */
  predicate StrippedAt(s: string, r: string, i: int) {
    && 0 <= i <= |s| - |r|
    && r == s[i..i + |r|]
    && (forall k :: 0 <= k < i ==> IsSpace(s[k]))
    && (forall k :: i + |r| <= k < |s| ==> IsSpace(s[k]))
  }

  /** A cell's text as the reader stores it: newlines become spaces, then the
      surrounding whitespace is stripped. */
  function CellText(raw: string): (r: string)
    ensures '\n' !in r
    ensures r == [] || (!IsSpace(r[0]) && !IsSpace(r[|r| - 1]))
    ensures |r| <= |raw|
    ensures exists i :: StrippedAt(Replace(raw, '\n', ' '), r, i)
  {
    var flat := Replace(raw, '\n', ' ');
    var r := Strip(flat);
    assert forall c :: c in r ==> c in flat;
    r
  }

  /** A stored cell text is its own cell text: flattening and stripping it
      again changes nothing. */
  lemma CellTextIdempotent(raw: string)
    ensures CellText(CellText(raw)) == CellText(raw)
  {
    var r := CellText(raw);
    var flat := Replace(raw, '\n', ' ');
    assert r == Strip(flat);
    NoNewlineReplace(r);
    StripIdempotent(flat);
  }

  /** Replacing a character that does not occur changes nothing. */
  lemma NoNewlineReplace(s: string)
    requires '\n' !in s
    ensures Replace(s, '\n', ' ') == s
  {
    var t := Replace(s, '\n', ' ');
    forall i | 0 <= i < |s|
      ensures t[i] == s[i]
    {
      assert s[i] in s;
    }
  }

  /** Stripping twice strips nothing more. */
  lemma StripIdempotent(s: string)
    ensures Strip(Strip(s)) == Strip(s)
  {
    var r := Strip(s);
    assert TrimStart(r) == r;
    assert TrimEnd(r) == r;
  }
}
